=== FILE: README.md ===
# AIS contact manager — a Dafny model

This project models the contact-history core of the LSTS AIS contact manager
(`AisContactManager` and `ShipAisSnapshot`). The model covers:

- the immutable snapshot of one AIS report: MMSI, speed over ground, course
  over ground, heading, latitude, longitude, timestamp and label;
- the per-ship history store. It maps an MMSI to a stack of snapshots. It is
  modelled as `map<int, seq<Snapshot>>`, and index 0 of a stack is the head,
  which holds the most recent push;
- `setShipPosition`, `getShips(t)`, `getAllSnapshots` and `loadContacts`;
- the identity and timestamp part of `getFutureSnapshot`, its varargs form,
  and the label-keyed `getFutureSnapshots`;
- the worked example in `main`.

Everything is written as immutable datatypes and pure functions. The store is
passed explicitly as a value, not held by a singleton.

Modules:

- `Outcomes` (outcomes.dfy) defines `Option` and `Result`.
- `Snapshots` (snapshot.dfy) defines the snapshot record.
- `ContactStore` (contact_store.dfy) has the store, the time-indexed lookup,
  `getShips`, export and import, and facts about a series of pushes.
- `Extrapolation` (extrapolation.dfy) projects one snapshot forward. The
  great-circle step is a function parameter.
- `ContactManager` (contact_manager.dfy) has the future-snapshot queries.
- `Scenarios` (scenario.dfy) holds the `main` example and two small stores
  that show corner cases.

Modelling choices:

- **Iteration order.** `getShips` walks a `HashMap`, and Java does not fix
  that order. The model takes the order as an argument `order`.
  `IsKeyOrder(store, order)` requires `order` to list every key exactly once.
  Properties that do not depend on the order are proved for every such
  `order`. The result is the same multiset of snapshots whatever the order.
- **Clock.** `getShips()` and `main` read `System.currentTimeMillis()`. In the
  model the clock reading is an explicit argument (`t`, `now`).
- **Errors as values.** `getFutureSnapshot` throws on an unknown MMSI (a null
  stack). It also throws on an empty stack. No push creates
  one; a loaded map, or a caller changing the deques that `getAllSnapshots`
  or `saveContacts` hand out, can. Both cases become `Failure(UnknownVessel(m))` and
  `Failure(EmptyHistory(m))` instead of preconditions.
- **Varargs with no offsets.** With no offsets, the varargs
  `getFutureSnapshot` never looks anything up. It returns the empty list even
  for an unknown ship, and so does the model.
- **What `getFutureSnapshots` projects.** It looks each listed snapshot up
  again by that snapshot's own `mmsi` field and projects the head of the
  stack, whatever the head's timestamp. The result is keyed by the label of
  the snapshot `getShips(now)` returned, and a later entry overwrites an
  earlier one with the same label. The model keeps all of this.
  `WellFormed(store)` means every snapshot is filed under its own MMSI. Under
  that condition the query cannot fail.

Behaviours of the code that a reader might not expect, kept as written:

- **Loading replaces history.** `loadContacts` calls `putAll`. It replaces the
  whole stack of every loaded ship and does not extend it
  (`LoadReplacesHistory`).
- **Out-of-order pushes.** A lookup answers the first match from the newest
  push, not the latest qualifying snapshot. After pushes at 1000 and then 500,
  a query at 2000 answers 500 (`OutOfOrderLookupIsNotLatest`). The answer is
  guaranteed to be the latest qualifying snapshot when pushes came in
  increasing time order (`NewestFirstLookupIsLatest`).

One behaviour of the code is corrected rather than kept:

- **Elapsed seconds.** `getFutureSnapshot` computes the elapsed time as
  `offsetMs / 1000` in integer arithmetic, so it drops the fraction of a
  second (see Findings). `ContactManager.FutureSnapshot`, and through it
  `FutureSnapshotsAt`, `PutProjections` and `FutureSnapshots`, use the
  corrected elapsed time with its fraction. `Extrapolation.ProjectAsWritten`
  carries the code's truncated one.

## Model

| member | source | states |
|---|---|---|
| `Snapshots.GettersReturnConstructorArguments` | src/main/java/pt/lsts/aismanager/ShipAisSnapshot.java:30-111 | each getter (mmsi, sog, cog, heading, latRads, lonRads, timestampMs, label) returns exactly the constructor's argument with no unit conversion, and a snapshot is rebuilt exactly from its getters |
| `ContactStore.FirstAtOrBefore` | src/main/java/pt/lsts/aismanager/api/AisContactManager.java:86-93 | the scan from the head answers an index whose timestamp is ≤ t and before which every timestamp is > t; it answers None exactly when every timestamp is > t |
| `ContactStore.FirstAtOrBeforeUnique` | src/main/java/pt/lsts/aismanager/api/AisContactManager.java:86-93 | conversely, any index that qualifies and has only later snapshots before it is the scan's answer: the first match is unique |
| `ContactStore.VesselAtOrBefore` | src/main/java/pt/lsts/aismanager/api/AisContactManager.java:84-94 | a ship contributes a snapshot exactly when it is known and some snapshot has timestamp ≤ t; that snapshot is in its stack, has timestamp ≤ t, and every snapshot nearer the head is later than t |
| `ContactStore.SetShipPosition` | src/main/java/pt/lsts/aismanager/api/AisContactManager.java:41-54 | after the call the ship has a stack, known or not before; its head is the new snapshot built from the arguments; the old stack (or nothing) is the unchanged tail; the key set gains only `mmsi`; every other ship's stack is unchanged |
| `ContactStore.ShipsAlong` | src/main/java/pt/lsts/aismanager/api/AisContactManager.java:82-94 | the outer loop keeps at most one snapshot per visited ship |
| `ContactStore.ShipsAlongMembers` | src/main/java/pt/lsts/aismanager/api/AisContactManager.java:84-94 | each listed snapshot is the contribution of some visited ship, and each visited ship's contribution is listed |
| `ContactStore.GetShips` | src/main/java/pt/lsts/aismanager/api/AisContactManager.java:80-97 | at most one snapshot per ship (length ≤ number of keys); every snapshot has timestamp ≤ t and is the first-match contribution of some known ship; every known ship with a qualifying snapshot has its contribution listed |
| `ContactStore.Fleet` | src/main/java/pt/lsts/aismanager/api/AisContactManager.java:84-94 | the order-free reading of getShips: a ship is in the fleet exactly when it is known and has a qualifying snapshot, and maps to its first-match snapshot |
| `ContactStore.GetShipsListsFleet` | src/main/java/pt/lsts/aismanager/api/AisContactManager.java:80-97 | the list has exactly as many elements as ships with a qualifying snapshot, its elements are exactly the per-ship first matches, and each snapshot occurs as often as there are ships whose first match it is |
| `ContactStore.ShipsAlongConcat` | src/main/java/pt/lsts/aismanager/api/AisContactManager.java:84-94 | the list is the concatenation, in visiting order, of each ship's contribution: ships are neither reordered nor merged |
| `ContactStore.ShipsAlongPermutation` | src/main/java/pt/lsts/aismanager/api/AisContactManager.java:84-94 | visiting the same ships in another order yields a permutation of the same list |
| `ContactStore.ShipsAlongCount` | src/main/java/pt/lsts/aismanager/api/AisContactManager.java:82-94 | with no ship visited twice, a snapshot occurs in the list as often as there are visited ships whose first match it is |
| `ContactStore.ShipsAlongLength` | src/main/java/pt/lsts/aismanager/api/AisContactManager.java:82-94 | with no ship visited twice, the list length is the number of visited ships that have a qualifying snapshot |
| `ContactStore.GetShipsOrderIndependent` | src/main/java/pt/lsts/aismanager/api/AisContactManager.java:84-94 | any two iteration orders of the same map give the same multiset of snapshots |
| `ContactStore.GetShipsBeforeAllReports` | src/main/java/pt/lsts/aismanager/api/AisContactManager.java:84-94 | a query earlier than every recorded snapshot answers the empty list |
| `ContactStore.NewestFirstLookupIsLatest` | src/main/java/pt/lsts/aismanager/api/AisContactManager.java:31-36 | when a stack is newest first, as the field's comment assumes, the first match is also the latest snapshot with timestamp ≤ t |
| `ContactStore.PushKeepsNewestFirst` | src/main/java/pt/lsts/aismanager/api/AisContactManager.java:45-53 | a push later than the current head keeps the stack newest first |
| `ContactStore.OutOfOrderLookupIsNotLatest` | src/main/java/pt/lsts/aismanager/api/AisContactManager.java:86-93 | pushes at 1000 then 500: the lookup at 2000 answers 500 although 1000 also qualifies |
| `ContactStore.PushThenLookup` | src/main/java/pt/lsts/aismanager/api/AisContactManager.java:45-53 | after a push for `mmsi`, that ship's lookup at t answers the new snapshot if its timestamp is ≤ t, and otherwise what it answered before |
| `ContactStore.PushIsolatesOtherShips` | src/main/java/pt/lsts/aismanager/api/AisContactManager.java:45-53 | a push for one ship leaves every other ship's lookup unchanged |
| `ContactStore.PushKeepsOtherShipsResults` | src/main/java/pt/lsts/aismanager/api/AisContactManager.java:84-94 | the getShips list over ships other than `mmsi` is the same before and after a push for `mmsi` |
| `ContactStore.GetShipsNamesKnownShips` | src/main/java/pt/lsts/aismanager/api/AisContactManager.java:109-110 | in a well-formed store every listed snapshot's own MMSI names a ship with a non-empty stack, so the lookup in getFutureSnapshots succeeds |
| `ContactStore.PushKeepsWellFormed` | src/main/java/pt/lsts/aismanager/api/AisContactManager.java:43-52 | pushes file the new snapshot under its own MMSI, so well-formedness is kept |
| `ContactStore.GetAllSnapshots` | src/main/java/pt/lsts/aismanager/api/AisContactManager.java:56-62 | the copy has the same keys, and each key maps to the same stack |
| `ContactStore.LoadContacts` | src/main/java/pt/lsts/aismanager/api/AisContactManager.java:195-199 | keys are the union; every loaded key maps to the loaded stack, which replaces any existing history; keys not loaded keep their stacks |
| `ContactStore.LoadKeepsWellFormed` | src/main/java/pt/lsts/aismanager/api/AisContactManager.java:195-199 | loading well-formed contacts into a well-formed store keeps it well-formed |
| `ContactStore.ExportImportRoundTrip` | src/main/java/pt/lsts/aismanager/api/AisContactManager.java:195-199 | loading the exported map into an empty manager reproduces the store and every getShips answer |
| `ContactStore.LoadIdempotent` | src/main/java/pt/lsts/aismanager/api/AisContactManager.java:197 | loading the same contacts twice equals loading them once |
| `ContactStore.LoadReplacesHistory` | src/main/java/pt/lsts/aismanager/api/AisContactManager.java:197 | after a push, loading contacts that carry the ship leaves exactly the loaded stack: the pushed history is gone |
| `ContactStore.PushOntoStack` | src/main/java/pt/lsts/aismanager/api/AisContactManager.java:45-53 | one setShipPosition call is exactly the store with that ship's stack replaced by the report on top of the old stack, or by a one-element stack for a new ship |
| `ContactStore.ReplayAppend` | src/main/java/pt/lsts/aismanager/api/AisContactManager.java:41-54 | replaying two series of setShipPosition calls equals replaying the first, then the second |
| `ContactStore.ReplayOneShip` | src/main/java/pt/lsts/aismanager/api/AisContactManager.java:45-53 | a non-empty series of reports for one ship piles onto that ship's stack in reverse call order, on top of its old stack; other ships are untouched |
| `Extrapolation.WholeSecondsAsWritten` | src/main/java/pt/lsts/aismanager/api/AisContactManager.java:130 | Java `long` division by 1000 truncates toward zero: the quotient times 1000 is within one second of the offset, on the offset's side of zero |
| `Extrapolation.SubSecondOffsetsDoNotMove` | src/main/java/pt/lsts/aismanager/api/AisContactManager.java:130 | as written, every offset strictly between -1000 and 1000 ms yields 0 elapsed seconds, and -1500 ms yields -1 s |
| `Extrapolation.ElapsedSeconds` | src/main/java/pt/lsts/aismanager/api/AisContactManager.java:130 | the intended elapsed time: seconds × 1000 equals the millisecond offset exactly |
| `Extrapolation.ElapsedSecondsExact` | src/main/java/pt/lsts/aismanager/api/AisContactManager.java:130 | the intended elapsed time is injective and additive, and agrees with the truncated one exactly on whole seconds |
| `Extrapolation.Project` | src/main/java/pt/lsts/aismanager/api/AisContactManager.java:130-145 | the projection keeps mmsi, sog, cog, heading and label; its timestamp is the old one plus the offset; its position is the great-circle step from the latitude, longitude, course (not heading) and speed over the corrected elapsed time `ElapsedSeconds(offsetMs)`, with the fraction of a second kept |
| `Extrapolation.ProjectAsWritten` | src/main/java/pt/lsts/aismanager/api/AisContactManager.java:130-145 | the projection as the code computes it: the same identity and timestamp, with the position from the great-circle step over the truncated whole seconds `ElapsedSecondsAsWritten(offsetMs)` |
| `Extrapolation.ProjectAsWrittenVsIntended` | src/main/java/pt/lsts/aismanager/api/AisContactManager.java:130-145 | the as-written and corrected projections agree in everything but position; they are equal on whole-second offsets; for offsets under one second the as-written position is the zero-second step |
| `Extrapolation.SubSecondProjectionDiffers` | src/main/java/pt/lsts/aismanager/api/AisContactManager.java:130 | with a step that reports the seconds it is given, 999 ms moves the corrected projection by 0.999 s and the as-written one by 0 s |
| `Extrapolation.ProjectTimestampsCompose` | src/main/java/pt/lsts/aismanager/api/AisContactManager.java:144-145 | projecting by a, then by b, gives the timestamp and identity of projecting by a + b, for offsets of any sign |
| `Extrapolation.ProjectZeroOffset` | src/main/java/pt/lsts/aismanager/api/AisContactManager.java:144-145 | a zero offset keeps the timestamp and asks the great-circle step for a zero-second move |
| `ContactManager.FutureSnapshot` | src/main/java/pt/lsts/aismanager/api/AisContactManager.java:127-148 | it fails with UnknownVessel when the ship is unknown and with EmptyHistory when its stack is empty; otherwise it succeeds and copies the head's mmsi, sog, cog, heading and label, with timestamp = head's timestamp + offset and the position from the corrected elapsed time `ElapsedSeconds(offsetMs)` |
| `ContactManager.FutureSnapshotsAt` | src/main/java/pt/lsts/aismanager/api/AisContactManager.java:119-122 | with no offsets it answers the empty list; otherwise it succeeds exactly when the ship has a non-empty stack, and then returns as many snapshots as offsets, element i being the single-offset projection for offsets[i] |
| `ContactManager.PutProjections` | src/main/java/pt/lsts/aismanager/api/AisContactManager.java:109-113 | it succeeds exactly when every listed snapshot's MMSI has a non-empty stack, and the result's keys are exactly the listed labels |
| `ContactManager.PutProjectionsSnoc` | src/main/java/pt/lsts/aismanager/api/AisContactManager.java:109-112 | a successful loop also succeeded on every shorter prefix; its last step puts the projection of the last snapshot's ship under that snapshot's label, over whatever the prefix left there |
| `ContactManager.PutProjectionsLastWins` | src/main/java/pt/lsts/aismanager/api/AisContactManager.java:109-113 | the value under each label is the projection for the last listed snapshot with that label |
| `ContactManager.FutureSnapshots` | src/main/java/pt/lsts/aismanager/api/AisContactManager.java:103-114 | on success the keys are exactly the labels of getShips(now); on a well-formed store it always succeeds |
| `Scenarios.MainShip1Stage` | src/main/java/pt/lsts/aismanager/api/AisContactManager.java:161-165 | main's five reports for ship 1 build the stack 3342, 3023, 2423, 2000, now |
| `Scenarios.MainShip2Stage` | src/main/java/pt/lsts/aismanager/api/AisContactManager.java:166-171 | main's six reports for ship 2 build the stack 2987, 2423, 1762, 1234, 768, 213 beside ship 1's |
| `Scenarios.MainShip3Stage` | src/main/java/pt/lsts/aismanager/api/AisContactManager.java:172 | main's last report creates ship 3's stack holding 1256 |
| `Scenarios.MainStoreStacks` | src/main/java/pt/lsts/aismanager/api/AisContactManager.java:161-172 | the twelve calls of main build exactly those three stacks |
| `Scenarios.MainShip1At2000` | src/main/java/pt/lsts/aismanager/api/AisContactManager.java:174-180 | ship 1's scan at 2000 skips the reports at 3342, 3023 and 2423 and answers the one at 2000 |
| `Scenarios.MainShip2At2000` | src/main/java/pt/lsts/aismanager/api/AisContactManager.java:174-181 | ship 2's scan at 2000 skips the reports at 2987 and 2423 and answers the one at 1762 |
| `Scenarios.MainShip3At2000` | src/main/java/pt/lsts/aismanager/api/AisContactManager.java:174-182 | ship 3's scan at 2000 answers its only report, at 1256 |
| `Scenarios.MainStacksSize` | src/main/java/pt/lsts/aismanager/api/AisContactManager.java:176 | the copy returned by getAllSnapshots for main's stacks holds three ships |
| `Scenarios.MainStacksAt2000` | src/main/java/pt/lsts/aismanager/api/AisContactManager.java:174-183 | on those stacks, getShips(2000) visiting ships 1, 2, 3 answers the snapshots at 2000, 1762 and 1256 |
| `Scenarios.MainStacksAnyOrder` | src/main/java/pt/lsts/aismanager/api/AisContactManager.java:174-177 | in every iteration order, getShips(2000) on those stacks answers the same three snapshots |
| `Scenarios.MainScenario` | src/main/java/pt/lsts/aismanager/api/AisContactManager.java:160-183 | for every clock reading, main's store has 3 ships, and getShips(2000) yields exactly ship 1 at 2000, ship 2 at 1762 and ship 3 at 1256 (in order 1, 2, 3, and as a multiset in any order) |
| `Scenarios.LateReportStack` | src/main/java/pt/lsts/aismanager/api/AisContactManager.java:45-53 | pushing ship 5 at 100 and then at 5000 leaves the later report on top, and the store stays well formed |
| `Scenarios.FutureSnapshotsProjectTheHead` | src/main/java/pt/lsts/aismanager/api/AisContactManager.java:107-111 | with pushes at 100 ("old") then 5000 ("new") and now = 1000, the result is keyed "old" but projects the head: timestamp 5000 + offset, label "new" |
| `Scenarios.MisfiledContactsFailProjection` | src/main/java/pt/lsts/aismanager/api/AisContactManager.java:110 | a snapshot with MMSI 9 loaded under key 8 makes getFutureSnapshots fail with UnknownVessel(9) |

## Left out

- The great-circle trigonometry (`Math.asin`, `Math.atan2`, `sin`, `cos`,
  degree/radian conversions, Earth radius 6371 km) is not modelled. It is
  floating-point computation. A caller-supplied total function
  `GreatCircle` stands for it. Whether a zero speed or a zero offset keeps
  the position unchanged is not modelled.
- `getSogMps`, `getLatDegs` and `getLonDegs` are not modelled. They are
  floating-point unit conversions. The five float fields are opaque `real`
  values that are only carried.
- The `synchronized` blocks, the unsynchronized read in `getFutureSnapshot`
  and the singleton are not modelled. They concern concurrency and global
  state. The store is an explicit value.
- `System.currentTimeMillis()` is not modelled. The clock reading is an
  argument of `GetShips`, `FutureSnapshots` and `MainStore`.
- `saveContacts` is not modelled. It only applies a caller-supplied function.
  That function receives the live map, so it can change the manager's
  store: empty a stack, file a snapshot under another MMSI, or put a `null`
  stack. The model's stores change only through its operations.
- The console output of `main` is not modelled.
- The internal iteration order of `HashMap` is not modelled. It is replaced by
  the explicit `order` argument.
- The difference between `getAllSnapshots`' shallow `clone()` and a deep copy
  is not modelled. In a value model they are the same. The clone holds the
  manager's live deques, so a caller can change the store through them, for
  example empty ship 1's stack so that a later `getFutureSnapshot(1, …)`
  throws at line 129. The model's stores change only through its operations.
- ContactManager.FutureSnapshot: does not model 64-bit wrap-around of
  `getTimestampMs() + offsetMs`, because timestamps are unbounded integers.
- Extrapolation.Project: does not model 64-bit wrap-around of the advanced
  timestamp, for the same reason.
- Extrapolation.Project: the position uses the corrected elapsed time
  `ElapsedSeconds(offsetMs)`, not the truncated whole seconds that line 130
  computes. The code's own projection is `Extrapolation.ProjectAsWritten`.
  `Extrapolation.ProjectAsWrittenVsIntended` relates the two: they are equal
  on whole-second offsets and differ only in position otherwise.
- ContactManager.FutureSnapshot: the projected position comes from
  `Extrapolation.Project`, so it uses the corrected elapsed time, not line
  130's truncated seconds. The as-written position is the one
  `Extrapolation.ProjectAsWritten` gives for the head of the stack.
- ContactStore.LoadContacts: `putAll` stores the caller's `Deque` objects
  themselves, so the loaded stacks stay shared with the caller. The model
  treats stacks as values and cannot express that sharing. Three cases are
  not modelled:
  - If the caller later changes a loaded deque, the manager's history
    changes with it.
  - If one deque is loaded under two MMSIs, a push for one ship also changes
    the other ship's stack. `ContactStore.PushIsolatesOtherShips` and
    `ContactStore.PushKeepsOtherShipsResults` hold only for stores in which
    no stack is shared.
  - A loaded `null` stack makes `getShips` throw at line 86. Every model
    stack is a sequence, so this cannot happen in the model.
- Snapshots.GettersReturnConstructorArguments: MMSI is an unbounded `int`,
  not a 32-bit one, because no arithmetic is done on it.
- A `null` label is not modelled. The Java label may be `null`, and
  `getFutureSnapshots` then uses `null` as a `HashMap` key. `aisLabel` is a
  `string`, which cannot be null. No modelled property depends on the label's
  value beyond its use as a key.

## Findings

| source | as written | input that shows it | evidently intended | confidence | as-written member | corrected member |
|---|---|---|---|---|---|---|
| src/main/java/pt/lsts/aismanager/api/AisContactManager.java:130 | `offsetMs / 1000` divides a `long` by an `int`. It truncates the offset to whole seconds, toward zero, before multiplying by the speed. | offsetMs = 999 gives 0 s, so no movement at any speed; offsetMs = -1500 gives -1 s | the elapsed time in seconds with its fraction, `offsetMs / 1000.0` | medium, not executed | `Extrapolation.SubSecondProjectionDiffers` | `Extrapolation.ElapsedSecondsExact` |

The projection in the model (`Extrapolation.Project`, and through it
`ContactManager.FutureSnapshot`) uses the corrected elapsed time
`ElapsedSeconds`. The code's version is kept beside it:
- `ElapsedSecondsAsWritten` is the truncated elapsed time.
- `SubSecondOffsetsDoNotMove` shows the truncation.
- `ProjectAsWritten` is the projection built on the truncated time.
- `ProjectAsWrittenVsIntended` states where the two projections agree and
  where they differ.

=== FILE: contact_manager.dfy ===
/** The future-snapshot queries of AisContactManager, built on the contact
    store and on the projection of one snapshot. */
module ContactManager {
  import opened Snapshots
  import opened Outcomes
  import opened ContactStore
  import opened Extrapolation

  /** What getFutureSnapshot throws: a null stack for an unknown MMSI, or an
      empty stack (no push creates one; a loaded map, or a caller changing
      the deques that getAllSnapshots or saveContacts hand out, can). */
  datatype Error = UnknownVessel(mmsi: int) | EmptyHistory(mmsi: int)

  /** getFutureSnapshot(mmsi, offsetMs): the head of the ship's stack, its
      latest push, projected by `offsetMs`. The head is used whatever its
      timestamp. */
  function FutureSnapshot(store: Store, geo: GreatCircle, mmsi: int, offsetMs: int): (r: Result<Snapshot, Error>)
    ensures mmsi !in store ==> r == Failure(UnknownVessel(mmsi))
    ensures mmsi in store && |store[mmsi]| == 0 ==> r == Failure(EmptyHistory(mmsi))
    ensures r.Success? <==> mmsi in store && |store[mmsi]| > 0
    ensures r.Success? ==>
      var head := store[mmsi][0];
      && r.value.mmsi == head.mmsi && r.value.sog == head.sog && r.value.cog == head.cog
      && r.value.heading == head.heading && r.value.aisLabel == head.aisLabel
      && r.value.timestampMs == head.timestampMs + offsetMs
      && (r.value.latRads, r.value.lonRads)
         == geo(head.latRads, head.lonRads, head.cog, head.sog, ElapsedSeconds(offsetMs))
  {
    if mmsi !in store then Failure(UnknownVessel(mmsi))
    else if |store[mmsi]| == 0 then Failure(EmptyHistory(mmsi))
    else Success(Project(geo, store[mmsi][0], offsetMs))
  }

  /** getFutureSnapshot(mmsi, offsetsMs...): one projection per offset, in the
      caller's order. With no offsets nothing is looked up, so even an
      unknown ship gives the empty list. */
  function FutureSnapshotsAt(store: Store, geo: GreatCircle, mmsi: int, offsets: seq<int>): (r: Result<seq<Snapshot>, Error>)
    ensures |offsets| == 0 ==> r == Success([])
    ensures |offsets| > 0 ==> (r.Success? <==> mmsi in store && |store[mmsi]| > 0)
    ensures r.Failure? ==> |offsets| > 0 && r.error == FutureSnapshot(store, geo, mmsi, offsets[0]).error
    ensures r.Success? ==> |r.value| == |offsets|
    ensures r.Success? ==>
      forall i :: 0 <= i < |offsets| ==> FutureSnapshot(store, geo, mmsi, offsets[i]) == Success(r.value[i])
  {
    if |offsets| == 0 then Success([])
    else
      match FutureSnapshot(store, geo, mmsi, offsets[0])
      case Failure(e) => Failure(e)
      case Success(first) =>
        match FutureSnapshotsAt(store, geo, mmsi, offsets[1..])
        case Failure(e) => Failure(e)
        case Success(rest) =>
          assert forall i :: 1 <= i < |offsets| ==> offsets[i] == offsets[1..][i - 1];
          Success([first] + rest)
  }

  /** The loop of getFutureSnapshots over the current snapshots, in list
      order: each snapshot's MMSI is looked up again and its head projected,
      and the projection is put under the snapshot's label, so a later
      snapshot with the same label overwrites an earlier one. */
  function PutProjections(store: Store, geo: GreatCircle, current: seq<Snapshot>, offsetMs: int)
    : (r: Result<map<string, Snapshot>, Error>)
    ensures r.Success? <==> forall s :: s in current ==> s.mmsi in store && |store[s.mmsi]| > 0
    ensures r.Success? ==> r.value.Keys == set s | s in current :: s.aisLabel
  {
    if |current| == 0 then Success(map[])
    else
      var last := current[|current| - 1];
      var init := current[..|current| - 1];
      assert current == init + [last];
      match PutProjections(store, geo, init, offsetMs)
      case Failure(e) => Failure(e)
      case Success(m) =>
        match FutureSnapshot(store, geo, last.mmsi, offsetMs)
        case Failure(e) => Failure(e)
        case Success(p) =>
          assert (set s | s in current :: s.aisLabel) == (set s | s in init :: s.aisLabel) + {last.aisLabel};
          Success(m[last.aisLabel := p])
  }

  /** The loop's last step: the projections of `init`, then the projection
      of `last` put under its label. */
  lemma PutProjectionsSnoc(
    store: Store, geo: GreatCircle, init: seq<Snapshot>, last: Snapshot, offsetMs: int)
    requires PutProjections(store, geo, init + [last], offsetMs).Success?
    ensures PutProjections(store, geo, init, offsetMs).Success?
    ensures FutureSnapshot(store, geo, last.mmsi, offsetMs).Success?
    ensures PutProjections(store, geo, init + [last], offsetMs).value
      == PutProjections(store, geo, init, offsetMs).value[
           last.aisLabel := FutureSnapshot(store, geo, last.mmsi, offsetMs).value]
  {
    assert (init + [last])[..|init|] == init;
  }

  /** If no snapshot after index `i` of `init` carries `aisLabel`, and the
      snapshot appended to it does not either, then none after `i` in
      `current` does. */
  lemma LaterLabelsAfterAppend(init: seq<Snapshot>, current: seq<Snapshot>, aisLabel: string, i: int)
    requires |current| > 0 && init == current[..|current| - 1]
    requires 0 <= i < |init|
    requires current[|current| - 1].aisLabel != aisLabel
    requires forall j :: i < j < |init| ==> init[j].aisLabel != aisLabel
    ensures init[i] == current[i]
    ensures forall j :: i < j < |current| ==> current[j].aisLabel != aisLabel
  {
    forall j | i < j < |current| ensures current[j].aisLabel != aisLabel {
      if j < |init| {
        assert init[j] == current[j];
      }
    }
  }

  /** Index `i` is the last position in `current` whose snapshot carries
      `aisLabel`. */
  ghost predicate LastWithLabel(current: seq<Snapshot>, aisLabel: string, i: int) {
    && 0 <= i < |current| && current[i].aisLabel == aisLabel
    && forall j :: i < j < |current| ==> current[j].aisLabel != aisLabel
  }

  /** The value under each label is the projection for the last snapshot in
      the list that carries that label; `i` is that snapshot's position. */
  lemma {:induction false} PutProjectionsLastWins(
    store: Store, geo: GreatCircle, current: seq<Snapshot>, offsetMs: int, aisLabel: string)
    returns (i: int)
    requires PutProjections(store, geo, current, offsetMs).Success?
    requires aisLabel in PutProjections(store, geo, current, offsetMs).value
    ensures LastWithLabel(current, aisLabel, i)
    ensures FutureSnapshot(store, geo, current[i].mmsi, offsetMs).Success?
    ensures PutProjections(store, geo, current, offsetMs).value[aisLabel]
      == FutureSnapshot(store, geo, current[i].mmsi, offsetMs).value
  {
    var n := |current| - 1;
    var last := current[n];
    var init := current[..n];
    assert current == init + [last];
    PutProjectionsSnoc(store, geo, init, last, offsetMs);
    var m := PutProjections(store, geo, current, offsetMs).value;
    if last.aisLabel != aisLabel {
      i := PutProjectionsLastWins(store, geo, init, offsetMs, aisLabel);
      LaterLabelsAfterAppend(init, current, aisLabel, i);
    } else {
      i := n;
    }
  }

  /** getFutureSnapshots(offsetMs): the ships answered by getShips at `now`,
      each projected from the head of its stack and keyed by the label of
      the snapshot getShips answered. */
  function FutureSnapshots(store: Store, geo: GreatCircle, order: seq<int>, now: int, offsetMs: int)
    : (r: Result<map<string, Snapshot>, Error>)
    requires IsKeyOrder(store, order)
    ensures r.Success? ==> r.value.Keys == set s | s in GetShips(store, order, now) :: s.aisLabel
    ensures WellFormed(store) ==> r.Success?
  {
    GetShipsNamesKnownShips(store, order, now);
    PutProjections(store, geo, GetShips(store, order, now), offsetMs)
  }
}

=== FILE: contact_store.dfy ===
/** The per-ship contact history of AisContactManager: a map from MMSI to a
    stack of snapshots. A stack is a sequence whose index 0 is the head, the
    snapshot pushed last. */
module ContactStore {
  import opened Snapshots
  import opened Outcomes

  /** MMSI to stack of snapshots, newest push first. */
  type Store = map<int, seq<Snapshot>>

  /** The store as it is when the manager is created. */
  const Empty: Store := map[]

  /** Every snapshot filed under key `k` reports `k` as its own MMSI. Pushes
      always keep this; a load of foreign contacts can break it, and so can a
      caller changing the live deques that getAllSnapshots or saveContacts
      hand out. */
  ghost predicate WellFormed(store: Store) {
    forall k, i :: k in store && 0 <= i < |store[k]| ==> store[k][i].mmsi == k
  }

  /** Timestamps strictly decrease from the head: the pushes happened in
      strictly increasing timestamp order. */
  ghost predicate NewestFirst(stack: seq<Snapshot>) {
    forall i, j :: 0 <= i < j < |stack| ==> stack[i].timestampMs > stack[j].timestampMs
  }

  /** `order` lists every key of the store exactly once: one possible
      iteration order of the underlying hash map. */
  ghost predicate IsKeyOrder(store: Store, order: seq<int>) {
    && (forall k :: k in order <==> k in store)
    && (forall i, j :: 0 <= i < j < |order| ==> order[i] != order[j])
  }

  /** The inner scan of getShips: walking the stack from the head, the index
      of the first snapshot not later than `t`, skipping newer ones; None when
      every snapshot is later. It is the first match in reverse insertion
      order, not the greatest timestamp not later than `t`. */
  function FirstAtOrBefore(stack: seq<Snapshot>, t: int): (r: Option<nat>)
    ensures r.Some? ==> r.value < |stack| && stack[r.value].timestampMs <= t
    ensures r.Some? ==> forall j :: 0 <= j < r.value ==> stack[j].timestampMs > t
    ensures r.None? <==> forall j :: 0 <= j < |stack| ==> stack[j].timestampMs > t
  {
    if |stack| == 0 then None
    else if stack[0].timestampMs <= t then Some(0)
    else match FirstAtOrBefore(stack[1..], t)
      case None => None
      case Some(i) => Some(i + 1)
  }

  /** The first-match index is the only index with the two properties of
      FirstAtOrBefore's contract: qualifying, and every newer one too late. */
  lemma FirstAtOrBeforeUnique(stack: seq<Snapshot>, t: int, i: nat)
    requires i < |stack| && stack[i].timestampMs <= t
    requires forall j :: 0 <= j < i ==> stack[j].timestampMs > t
    ensures FirstAtOrBefore(stack, t) == Some(i)
  {
  }

  /** What getShips contributes for ship `mmsi`: its first snapshot, from the
      head, not later than `t`; None for an unknown ship or when none
      qualifies. */
  function VesselAtOrBefore(store: Store, mmsi: int, t: int): (r: Option<Snapshot>)
    ensures r.Some? <==>
      mmsi in store && exists i :: 0 <= i < |store[mmsi]| && store[mmsi][i].timestampMs <= t
    ensures r.Some? ==> r.value in store[mmsi] && r.value.timestampMs <= t
    ensures r.Some? ==>
      exists i :: 0 <= i < |store[mmsi]| && store[mmsi][i] == r.value &&
        (forall j :: 0 <= j < i ==> store[mmsi][j].timestampMs > t)
  {
    if mmsi !in store then None
    else match FirstAtOrBefore(store[mmsi], t)
      case None => None
      case Some(i) => Some(store[mmsi][i])
  }

  /** setShipPosition: build the snapshot, create the ship's stack on its
      first report, then push the snapshot on the head of the stack. */
  function SetShipPosition(
    store: Store, mmsi: int, sog: real, cog: real, heading: real,
    latRads: real, lonRads: real, timestamp: int, aisLabel: string): (r: Store)
    ensures mmsi in r && |r[mmsi]| >= 1
    ensures r[mmsi][0] == Snapshot(mmsi, sog, cog, heading, latRads, lonRads, timestamp, aisLabel)
    ensures mmsi in store ==> r[mmsi][1..] == store[mmsi]
    ensures mmsi !in store ==> |r[mmsi]| == 1
    ensures r.Keys == store.Keys + {mmsi}
    ensures forall k :: k in store && k != mmsi ==> r[k] == store[k]
  {
    var stack := if mmsi in store then store[mmsi] else [];
    store[mmsi := [Snapshot(mmsi, sog, cog, heading, latRads, lonRads, timestamp, aisLabel)] + stack]
  }

  /** The outer loop of getShips over the ships in iteration order `order`,
      keeping at most one snapshot per ship. */
  function ShipsAlong(store: Store, order: seq<int>, t: int): (r: seq<Snapshot>)
    ensures |r| <= |order|
  {
    if |order| == 0 then []
    else
      var rest := ShipsAlong(store, order[1..], t);
      match VesselAtOrBefore(store, order[0], t)
      case None => rest
      case Some(s) => [s] + rest
  }

  /** Every listed snapshot is the contribution of a visited ship, and every
      visited ship's contribution is listed. */
  lemma {:induction false} ShipsAlongMembers(store: Store, order: seq<int>, t: int)
    ensures forall s :: s in ShipsAlong(store, order, t) ==>
      exists i :: 0 <= i < |order| && VesselAtOrBefore(store, order[i], t) == Some(s)
    ensures forall i :: 0 <= i < |order| && VesselAtOrBefore(store, order[i], t).Some? ==>
      VesselAtOrBefore(store, order[i], t).value in ShipsAlong(store, order, t)
  {
    if |order| > 0 {
      var tail := order[1..];
      ShipsAlongMembers(store, tail, t);
      assert forall i :: 1 <= i < |order| ==> order[i] == tail[i - 1];
    }
  }

  /** getShips(timestampMs): for every ship of the store, visited in the map's
      iteration order, the first snapshot from the head not later than `t`;
      ships without one are left out. */
  function GetShips(store: Store, order: seq<int>, t: int): (r: seq<Snapshot>)
    requires IsKeyOrder(store, order)
    ensures |r| <= |store|
    ensures forall s :: s in r ==> s.timestampMs <= t
    ensures forall s :: s in r ==> exists k :: k in store && VesselAtOrBefore(store, k, t) == Some(s)
    ensures forall k :: k in store && VesselAtOrBefore(store, k, t).Some? ==>
      VesselAtOrBefore(store, k, t).value in r
  {
    DistinctLength(order);
    assert (set k | k in order) == store.Keys;
    ShipsAlongMembers(store, order, t);
    ShipsAlong(store, order, t)
  }

  /** The order-free reading of getShips: ship to the snapshot it contributes. */
  function Fleet(store: Store, t: int): (f: map<int, Snapshot>)
    ensures forall k :: k in f <==> k in store && VesselAtOrBefore(store, k, t).Some?
    ensures forall k :: k in f ==> f[k] == VesselAtOrBefore(store, k, t).value
  {
    map k | k in store && VesselAtOrBefore(store, k, t).Some? :: VesselAtOrBefore(store, k, t).value
  }

  /** The ships whose fleet entry is `s`. */
  function Contributors(fleet: map<int, Snapshot>, s: Snapshot): set<int>
  {
    set k | k in fleet && fleet[k] == s
  }

  /** getAllSnapshots: a copy of the whole map. As a value it equals the store. */
  function GetAllSnapshots(store: Store): (r: Store)
    ensures r.Keys == store.Keys
    ensures forall k :: k in r ==> r[k] == store[k]
  {
    store
  }

  /** loadContacts: putAll of the loaded map. A loaded ship's stack replaces
      the stored one wholesale; ships not loaded keep theirs. */
  function LoadContacts(store: Store, contacts: Store): (r: Store)
    ensures r.Keys == store.Keys + contacts.Keys
    ensures forall k :: k in contacts ==> r[k] == contacts[k]
    ensures forall k :: k in store && k !in contacts ==> r[k] == store[k]
  {
    store + contacts
  }

  // ---------------------------------------------------------------------
  // Helpers about sequences of keys
  // ---------------------------------------------------------------------

  /** A duplicate-free sequence has as many elements as its set. */
  lemma {:induction false} DistinctLength(order: seq<int>)
    requires forall i, j :: 0 <= i < j < |order| ==> order[i] != order[j]
    ensures |set k | k in order| == |order|
  {
    if |order| > 0 {
      var tail := order[1..];
      DistinctLength(tail);
      assert (set k | k in order) == {order[0]} + (set k | k in tail);
      assert order[0] !in tail;
    }
  }

  /** A duplicate-free sequence holds each of its elements once. */
  lemma {:induction false} DistinctMultiset(order: seq<int>)
    requires forall i, j :: 0 <= i < j < |order| ==> order[i] != order[j]
    ensures forall x :: multiset(order)[x] == if x in order then 1 else 0
  {
    if |order| > 0 {
      var tail := order[1..];
      DistinctMultiset(tail);
      assert order == [order[0]] + tail;
      assert order[0] !in tail;
    }
  }

  // ---------------------------------------------------------------------
  // Properties of the time-indexed lookup
  // ---------------------------------------------------------------------

  /** When pushes came in increasing timestamp order, the first match from the
      head is also the latest report not later than `t`. */
  lemma NewestFirstLookupIsLatest(stack: seq<Snapshot>, t: int)
    requires NewestFirst(stack)
    ensures FirstAtOrBefore(stack, t).Some? ==>
      forall j :: 0 <= j < |stack| && stack[j].timestampMs <= t ==>
        stack[j].timestampMs <= stack[FirstAtOrBefore(stack, t).value].timestampMs
  {
  }

  /** A push whose timestamp is later than the ship's current head keeps the
      stack newest first. */
  lemma PushKeepsNewestFirst(
    store: Store, mmsi: int, sog: real, cog: real, heading: real,
    latRads: real, lonRads: real, timestamp: int, aisLabel: string)
    requires mmsi in store ==> NewestFirst(store[mmsi])
    requires mmsi in store && |store[mmsi]| > 0 ==> store[mmsi][0].timestampMs < timestamp
    ensures NewestFirst(SetShipPosition(store, mmsi, sog, cog, heading, latRads, lonRads, timestamp, aisLabel)[mmsi])
  {
    var r: Store := SetShipPosition(store, mmsi, sog, cog, heading, latRads, lonRads, timestamp, aisLabel);
    var stack := r[mmsi];
    forall i, j | 0 <= i < j < |stack|
      ensures stack[i].timestampMs > stack[j].timestampMs
    {
      if i == 0 {
        assert mmsi in store && stack[j] == store[mmsi][j - 1];
        assert store[mmsi][0].timestampMs >= store[mmsi][j - 1].timestampMs;
      } else {
        assert stack[i] == store[mmsi][i - 1] && stack[j] == store[mmsi][j - 1];
      }
    }
  }

  /** Out-of-order reports are not re-sorted: after reports at 1000 and then
      500, the lookup at 2000 answers the report at 500 although the report
      at 1000 also qualifies and is later. */
  lemma OutOfOrderLookupIsNotLatest()
    ensures var store := SetShipPosition(SetShipPosition(Empty, 7, 0.0, 0.0, 0.0, 0.0, 0.0, 1000, "X"),
                                         7, 0.0, 0.0, 0.0, 0.0, 0.0, 500, "X");
      && VesselAtOrBefore(store, 7, 2000).Some?
      && VesselAtOrBefore(store, 7, 2000).value.timestampMs == 500
      && store[7][1].timestampMs == 1000
  {
    var s1: Store := SetShipPosition(Empty, 7, 0.0, 0.0, 0.0, 0.0, 0.0, 1000, "X");
    var store: Store := SetShipPosition(s1, 7, 0.0, 0.0, 0.0, 0.0, 0.0, 500, "X");
    assert store[7][0].timestampMs == 500;
    assert FirstAtOrBefore(store[7], 2000) == Some(0);
  }

  // ---------------------------------------------------------------------
  // setShipPosition against the lookup
  // ---------------------------------------------------------------------

  /** After a push for `mmsi`, the ship's lookup answers the new report when
      it qualifies and otherwise what it answered before. */
  lemma PushThenLookup(
    store: Store, mmsi: int, sog: real, cog: real, heading: real,
    latRads: real, lonRads: real, timestamp: int, aisLabel: string, t: int)
    ensures var r: Store := SetShipPosition(store, mmsi, sog, cog, heading, latRads, lonRads, timestamp, aisLabel);
      VesselAtOrBefore(r, mmsi, t) ==
        if timestamp <= t then Some(Snapshot(mmsi, sog, cog, heading, latRads, lonRads, timestamp, aisLabel))
        else VesselAtOrBefore(store, mmsi, t)
  {
    var r: Store := SetShipPosition(store, mmsi, sog, cog, heading, latRads, lonRads, timestamp, aisLabel);
    var stack := r[mmsi];
    if timestamp > t {
      var before := if mmsi in store then store[mmsi] else [];
      assert stack[1..] == before;
      match FirstAtOrBefore(before, t)
      case None =>
      case Some(i) =>
        assert stack[i + 1] == before[i];
    }
  }

  /** A push for `mmsi` changes no other ship's lookup. */
  lemma PushIsolatesOtherShips(
    store: Store, mmsi: int, sog: real, cog: real, heading: real,
    latRads: real, lonRads: real, timestamp: int, aisLabel: string, other: int, t: int)
    requires other != mmsi
    ensures VesselAtOrBefore(SetShipPosition(store, mmsi, sog, cog, heading, latRads, lonRads, timestamp, aisLabel), other, t)
      == VesselAtOrBefore(store, other, t)
  {
  }

  /** getShips restricted to ships other than `mmsi` gives the same list
      before and after a push for `mmsi`. */
  lemma {:induction false} PushKeepsOtherShipsResults(
    store: Store, mmsi: int, sog: real, cog: real, heading: real,
    latRads: real, lonRads: real, timestamp: int, aisLabel: string, order: seq<int>, t: int)
    requires mmsi !in order
    ensures ShipsAlong(SetShipPosition(store, mmsi, sog, cog, heading, latRads, lonRads, timestamp, aisLabel), order, t)
      == ShipsAlong(store, order, t)
  {
    if |order| > 0 {
      PushKeepsOtherShipsResults(store, mmsi, sog, cog, heading, latRads, lonRads, timestamp, aisLabel, order[1..], t);
      PushIsolatesOtherShips(store, mmsi, sog, cog, heading, latRads, lonRads, timestamp, aisLabel, order[0], t);
    }
  }

  // ---------------------------------------------------------------------
  // getShips: composition, order independence, size
  // ---------------------------------------------------------------------

  /** The list is the concatenation, in ship order, of each ship's
      contribution: ships are neither reordered nor merged. */
  lemma {:induction false} ShipsAlongConcat(store: Store, o1: seq<int>, o2: seq<int>, t: int)
    ensures ShipsAlong(store, o1 + o2, t) == ShipsAlong(store, o1, t) + ShipsAlong(store, o2, t)
  {
    if |o1| > 0 {
      assert (o1 + o2)[1..] == o1[1..] + o2;
      ShipsAlongConcat(store, o1[1..], o2, t);
    } else {
      assert o1 + o2 == o2;
    }
  }

  /** In a permutation `o2` of a non-empty `o1`, the first ship of `o1` sits
      at some position `n`, and removing it leaves a permutation of the rest
      of `o1`. */
  lemma PermutationSplit(o1: seq<int>, o2: seq<int>) returns (n: nat)
    requires |o1| > 0 && multiset(o1) == multiset(o2)
    ensures n < |o2| && o2[n] == o1[0]
    ensures o2 == o2[..n] + [o1[0]] + o2[n + 1..]
    ensures multiset(o1[1..]) == multiset(o2[..n] + o2[n + 1..])
  {
    var k := o1[0];
    assert k in multiset(o2);
    n :| 0 <= n < |o2| && o2[n] == k;
    var a, b := o2[..n], o2[n + 1..];
    assert o2 == a + [k] + b;
    assert o1 == [k] + o1[1..];
    assert multiset(o1) == multiset{k} + multiset(o1[1..]);
    assert multiset(o2) == multiset(a) + multiset{k} + multiset(b);
    assert multiset(a + b) == multiset(a) + multiset(b);
    forall x
      ensures multiset(o1[1..])[x] == multiset(a + b)[x]
    {
      assert multiset(o1)[x] == multiset(o2)[x];
    }
  }

  /** Up to the order of its elements, the list does not depend on the order
      in which the ships are visited. */
  lemma {:induction false} ShipsAlongPermutation(store: Store, o1: seq<int>, o2: seq<int>, t: int)
    requires multiset(o1) == multiset(o2)
    ensures multiset(ShipsAlong(store, o1, t)) == multiset(ShipsAlong(store, o2, t))
    decreases |o1|
  {
    if |o1| > 0 {
      var k := o1[0];
      var n := PermutationSplit(o1, o2);
      var a, b := o2[..n], o2[n + 1..];
      ShipsAlongPermutation(store, o1[1..], a + b, t);
      ShipsAlongConcat(store, a, b, t);
      ShipsAlongConcat(store, a + [k], b, t);
      ShipsAlongConcat(store, a, [k], t);
      assert [k] + o1[1..] == o1;
      ShipsAlongConcat(store, [k], o1[1..], t);
      MultisetMoveToFront(ShipsAlong(store, a, t), ShipsAlong(store, [k], t),
                          ShipsAlong(store, b, t), ShipsAlong(store, o1[1..], t));
    } else {
      assert o2 == [];
    }
  }

  /** Moving a middle block to the front keeps the multiset: if `rest` is a
      permutation of `a + b`, then `mid + rest` is one of `a + mid + b`. */
  lemma MultisetMoveToFront(a: seq<Snapshot>, mid: seq<Snapshot>, b: seq<Snapshot>, rest: seq<Snapshot>)
    requires multiset(rest) == multiset(a + b)
    ensures multiset(mid + rest) == multiset(a + mid + b)
  {
  }

  /** The list holds exactly one snapshot per visited ship that has a
      qualifying report, when no ship is visited twice. */
  lemma {:induction false} ShipsAlongLength(store: Store, order: seq<int>, t: int)
    requires forall i, j :: 0 <= i < j < |order| ==> order[i] != order[j]
    ensures |ShipsAlong(store, order, t)| == |set k | k in order && VesselAtOrBefore(store, k, t).Some?|
  {
    if |order| > 0 {
      var tail := order[1..];
      ShipsAlongLength(store, tail, t);
      var rest := set k | k in tail && VesselAtOrBefore(store, k, t).Some?;
      var all := set k | k in order && VesselAtOrBefore(store, k, t).Some?;
      assert order[0] !in tail;
      if VesselAtOrBefore(store, order[0], t).Some? {
        assert all == {order[0]} + rest;
      } else {
        assert all == rest;
      }
    }
  }

  /** The first visited ship adds one occurrence of `s` exactly when its
      lookup answers `s`. */
  lemma ShipsAlongHeadCount(store: Store, order: seq<int>, t: int, s: Snapshot)
    requires |order| > 0
    ensures multiset(ShipsAlong(store, order, t))[s]
      == (if VesselAtOrBefore(store, order[0], t) == Some(s) then 1 else 0)
         + multiset(ShipsAlong(store, order[1..], t))[s]
  {
  }

  /** Likewise for the set of visited ships whose lookup answers `s`, when
      the first ship is not visited again. */
  lemma GivingHeadCount(store: Store, order: seq<int>, t: int, s: Snapshot)
    requires |order| > 0 && order[0] !in order[1..]
    ensures |set k | k in order && VesselAtOrBefore(store, k, t) == Some(s)|
      == (if VesselAtOrBefore(store, order[0], t) == Some(s) then 1 else 0)
         + |set k | k in order[1..] && VesselAtOrBefore(store, k, t) == Some(s)|
  {
    var rest := set k | k in order[1..] && VesselAtOrBefore(store, k, t) == Some(s);
    var all := set k | k in order && VesselAtOrBefore(store, k, t) == Some(s);
    assert order == [order[0]] + order[1..];
    if VesselAtOrBefore(store, order[0], t) == Some(s) {
      assert all == {order[0]} + rest;
    } else {
      assert all == rest;
    }
  }

  /** With no ship visited twice, a snapshot occurs in the list as often as
      there are visited ships whose lookup answers it. */
  lemma {:induction false} ShipsAlongCount(store: Store, order: seq<int>, t: int, s: Snapshot)
    requires forall i, j :: 0 <= i < j < |order| ==> order[i] != order[j]
    ensures multiset(ShipsAlong(store, order, t))[s]
      == |set k | k in order && VesselAtOrBefore(store, k, t) == Some(s)|
  {
    if |order| > 0 {
      var tail := order[1..];
      assert forall i, j :: 0 <= i < j < |tail| ==> tail[i] != tail[j] by {
        forall i, j | 0 <= i < j < |tail| ensures tail[i] != tail[j] {
          assert tail[i] == order[i + 1] && tail[j] == order[j + 1];
        }
      }
      ShipsAlongCount(store, tail, t, s);
      assert order[0] !in tail;
      ShipsAlongHeadCount(store, order, t, s);
      GivingHeadCount(store, order, t, s);
    }
  }

  /** The fleet's ships that contribute `s` are the ships in the iteration
      order whose lookup answers `s`. */
  lemma FleetGivingAlong(store: Store, order: seq<int>, t: int, s: Snapshot)
    requires IsKeyOrder(store, order)
    ensures Contributors(Fleet(store, t), s)
      == set k | k in order && VesselAtOrBefore(store, k, t) == Some(s)
  {
    var f := Fleet(store, t);
    forall k
      ensures (k in f && f[k] == s) <==> (k in order && VesselAtOrBefore(store, k, t) == Some(s))
    {
    }
  }

  /** The fleet's ships are the ships in the iteration order that have a
      qualifying report. */
  lemma FleetKeysAlong(store: Store, order: seq<int>, t: int)
    requires IsKeyOrder(store, order)
    ensures Fleet(store, t).Keys == set k | k in order && VesselAtOrBefore(store, k, t).Some?
  {
    var f := Fleet(store, t);
    var listed := set k | k in order && VesselAtOrBefore(store, k, t).Some?;
    forall k
      ensures k in f.Keys <==> k in listed
    {
    }
  }

  /** getShips is a listing of the order-free fleet: as many elements as
      ships with a qualifying report, each one of the fleet's snapshots, and
      every fleet snapshot listed, each as often as ships contribute it. */
  lemma GetShipsListsFleet(store: Store, order: seq<int>, t: int)
    requires IsKeyOrder(store, order)
    ensures |GetShips(store, order, t)| == |Fleet(store, t)|
    ensures forall s :: s in GetShips(store, order, t) ==> exists k :: k in Fleet(store, t) && Fleet(store, t)[k] == s
    ensures forall k :: k in Fleet(store, t) ==> Fleet(store, t)[k] in GetShips(store, order, t)
    ensures forall s :: multiset(GetShips(store, order, t))[s] == |Contributors(Fleet(store, t), s)|
  {
    var r := GetShips(store, order, t);
    var f := Fleet(store, t);
    assert |r| == |f| by {
      ShipsAlongLength(store, order, t);
      FleetKeysAlong(store, order, t);
    }
    forall s | s in r
      ensures exists k :: k in f && f[k] == s
    {
      var k :| k in store && VesselAtOrBefore(store, k, t) == Some(s);
      assert k in f && f[k] == s;
    }
    forall s
      ensures multiset(r)[s] == |Contributors(f, s)|
    {
      ShipsAlongCount(store, order, t, s);
      FleetGivingAlong(store, order, t, s);
    }
  }

  /** Two iteration orders of the same store give the same snapshots. */
  lemma GetShipsOrderIndependent(store: Store, o1: seq<int>, o2: seq<int>, t: int)
    requires IsKeyOrder(store, o1) && IsKeyOrder(store, o2)
    ensures multiset(GetShips(store, o1, t)) == multiset(GetShips(store, o2, t))
  {
    DistinctMultiset(o1);
    DistinctMultiset(o2);
    assert multiset(o1) == multiset(o2);
    ShipsAlongPermutation(store, o1, o2, t);
  }

  /** A query earlier than every recorded report answers the empty list. */
  lemma GetShipsBeforeAllReports(store: Store, order: seq<int>, t: int)
    requires IsKeyOrder(store, order)
    requires forall k, i :: k in store && 0 <= i < |store[k]| ==> store[k][i].timestampMs > t
    ensures GetShips(store, order, t) == []
  {
    GetShipsListsFleet(store, order, t);
    assert Fleet(store, t).Keys == {};
  }

  /** Under WellFormed, every listed snapshot names a ship with a non-empty
      stack under its own MMSI. */
  lemma GetShipsNamesKnownShips(store: Store, order: seq<int>, t: int)
    requires IsKeyOrder(store, order)
    ensures WellFormed(store) ==>
      forall s :: s in GetShips(store, order, t) ==> s.mmsi in store && |store[s.mmsi]| > 0
  {
    forall s | WellFormed(store) && s in GetShips(store, order, t)
      ensures s.mmsi in store && |store[s.mmsi]| > 0
    {
      var k :| k in store && VesselAtOrBefore(store, k, t) == Some(s);
      var i :| 0 <= i < |store[k]| && store[k][i] == s;
      assert s.mmsi == k;
    }
  }

  // ---------------------------------------------------------------------
  // WellFormed, getAllSnapshots and loadContacts
  // ---------------------------------------------------------------------

  /** Pushes keep every snapshot filed under its own MMSI. */
  lemma PushKeepsWellFormed(
    store: Store, mmsi: int, sog: real, cog: real, heading: real,
    latRads: real, lonRads: real, timestamp: int, aisLabel: string)
    requires WellFormed(store)
    ensures WellFormed(SetShipPosition(store, mmsi, sog, cog, heading, latRads, lonRads, timestamp, aisLabel))
  {
    var r: Store := SetShipPosition(store, mmsi, sog, cog, heading, latRads, lonRads, timestamp, aisLabel);
    forall k: int, i: int | k in r && 0 <= i < |r[k]|
      ensures r[k][i].mmsi == k
    {
      if k == mmsi && i > 0 {
        assert r[k][i] == r[k][1..][i - 1];
      }
    }
  }

  /** Loading well-formed contacts into a well-formed store keeps it so. */
  lemma LoadKeepsWellFormed(store: Store, contacts: Store)
    requires WellFormed(store) && WellFormed(contacts)
    ensures WellFormed(LoadContacts(store, contacts))
  {
  }

  /** Exporting a store and loading it into a fresh manager reproduces the
      store, hence every later query answer. */
  lemma ExportImportRoundTrip(store: Store, order: seq<int>, t: int)
    requires IsKeyOrder(store, order)
    ensures LoadContacts(Empty, GetAllSnapshots(store)) == store
    ensures IsKeyOrder(LoadContacts(Empty, GetAllSnapshots(store)), order)
    ensures GetShips(LoadContacts(Empty, GetAllSnapshots(store)), order, t) == GetShips(store, order, t)
  {
    assert LoadContacts(Empty, GetAllSnapshots(store)) == store;
  }

  /** Loading the same contacts twice is the same as loading them once. */
  lemma LoadIdempotent(store: Store, contacts: Store)
    ensures LoadContacts(LoadContacts(store, contacts), contacts) == LoadContacts(store, contacts)
  {
  }

  /** Loading replaces, it does not extend: a ship's pushed history is lost
      when the loaded contacts carry that ship. */
  lemma LoadReplacesHistory(
    store: Store, mmsi: int, sog: real, cog: real, heading: real,
    latRads: real, lonRads: real, timestamp: int, aisLabel: string, loaded: seq<Snapshot>)
    ensures var pushed := SetShipPosition(store, mmsi, sog, cog, heading, latRads, lonRads, timestamp, aisLabel);
      LoadContacts(pushed, map[mmsi := loaded])[mmsi] == loaded
  {
  }

  // ---------------------------------------------------------------------
  // Series of setShipPosition calls
  // ---------------------------------------------------------------------

  /** setShipPosition called with every field of `report`. */
  function Push(store: Store, report: Snapshot): Store {
    SetShipPosition(store, report.mmsi, report.sog, report.cog, report.heading,
                    report.latRads, report.lonRads, report.timestampMs, report.aisLabel)
  }

  /** The store after a series of setShipPosition calls, first call first. */
  function Replay(store: Store, reports: seq<Snapshot>): Store
    decreases |reports|
  {
    if |reports| == 0 then store else Replay(Push(store, reports[0]), reports[1..])
  }

  /** `reports` last to first. */
  function Reverse(reports: seq<Snapshot>): (r: seq<Snapshot>)
    ensures |r| == |reports|
  {
    if |reports| == 0 then [] else Reverse(reports[1..]) + [reports[0]]
  }

  /** Element `i` of the reversal is element `|reports| - 1 - i`. */
  lemma {:induction false} ReverseIndex(reports: seq<Snapshot>)
    ensures forall i :: 0 <= i < |reports| ==> Reverse(reports)[i] == reports[|reports| - 1 - i]
  {
    if |reports| > 0 {
      var rest := reports[1..];
      ReverseIndex(rest);
      assert Reverse(reports) == Reverse(rest) + [reports[0]];
      forall i | 0 <= i < |reports|
        ensures Reverse(reports)[i] == reports[|reports| - 1 - i]
      {
        if i < |rest| {
          assert Reverse(reports)[i] == Reverse(rest)[i] == rest[|rest| - 1 - i];
        }
      }
    }
  }

  /** Replaying two series of calls is replaying the first, then the
      second. */
  lemma {:induction false} ReplayAppend(store: Store, a: seq<Snapshot>, b: seq<Snapshot>)
    ensures Replay(store, a + b) == Replay(Replay(store, a), b)
    decreases |a|
  {
    if |a| > 0 {
      assert (a + b)[1..] == a[1..] + b;
      ReplayAppend(Push(store, a[0]), a[1..], b);
    } else {
      assert a + b == b;
    }
  }

  /** A second update of the same key overwrites the first. */
  lemma UpdateOverwrites(m: Store, k: int, a: seq<Snapshot>, b: seq<Snapshot>)
    ensures m[k := a][k := b] == m[k := b]
  {
  }

  /** Concatenation of stacks associates. */
  lemma AppendAssociates(a: seq<Snapshot>, b: seq<Snapshot>, c: seq<Snapshot>)
    ensures a + (b + c) == (a + b) + c
  {
  }

  /** A push puts the report on top of its ship's stack, or on a new stack. */
  lemma PushOntoStack(store: Store, report: Snapshot)
    ensures Push(store, report)
      == store[report.mmsi := [report] + (if report.mmsi in store then store[report.mmsi] else [])]
  {
  }

  /** Reports of a single ship pile up on its stack in reverse call order;
      no other ship is touched. */
  lemma {:induction false} ReplayOneShip(store: Store, mmsi: int, reports: seq<Snapshot>)
    requires |reports| > 0
    requires forall i :: 0 <= i < |reports| ==> reports[i].mmsi == mmsi
    ensures Replay(store, reports)
      == store[mmsi := Reverse(reports) + (if mmsi in store then store[mmsi] else [])]
    decreases |reports|
  {
    var x, rest := reports[0], reports[1..];
    var below := if mmsi in store then store[mmsi] else [];
    var pushed := Push(store, x);
    assert Replay(store, reports) == Replay(pushed, rest);
    assert pushed == store[mmsi := [x] + below] by {
      PushOntoStack(store, x);
    }
    if |rest| == 0 {
      assert Reverse(reports) == [x];
    } else {
      assert forall i :: 0 <= i < |rest| ==> rest[i].mmsi == mmsi by {
        forall i | 0 <= i < |rest| ensures rest[i].mmsi == mmsi {
          assert rest[i] == reports[i + 1];
        }
      }
      var stack := Reverse(rest) + ([x] + below);
      assert Replay(pushed, rest) == store[mmsi := stack] by {
        ReplayOneShip(pushed, mmsi, rest);
        assert mmsi in pushed && pushed[mmsi] == [x] + below;
        assert Replay(pushed, rest) == pushed[mmsi := stack];
        UpdateOverwrites(store, mmsi, [x] + below, stack);
      }
      assert stack == Reverse(reports) + below by {
        assert Reverse(reports) == Reverse(rest) + [x];
        AppendAssociates(Reverse(rest), [x], below);
      }
    }
  }
}

=== FILE: extrapolation.dfy ===
/** The non-numeric part of getFutureSnapshot: the projected snapshot keeps
    the identity of the snapshot it starts from and advances its timestamp.
    The great-circle trigonometry itself is a parameter. */
module Extrapolation {
  import opened Snapshots

  /** Great-circle dead reckoning on a spherical Earth, left uninterpreted.
      Arguments: latitude and longitude in radians, course over ground in
      radians (the bearing; the heading plays no part), speed over ground in
      knots and the elapsed time in seconds. Result: the projected latitude
      and longitude in radians. */
  type GreatCircle = (real, real, real, real, real) -> (real, real)

  /** Java's `offsetMs / 1000` on a `long`: division truncating toward zero,
      so the fraction of a second is dropped on both sides of zero. */
  function WholeSecondsAsWritten(offsetMs: int): (r: int)
    ensures offsetMs >= 0 ==> 0 <= r && r * 1000 <= offsetMs < r * 1000 + 1000
    ensures offsetMs < 0 ==> r <= 0 && r * 1000 - 1000 < offsetMs <= r * 1000
  {
    if offsetMs >= 0 then offsetMs / 1000 else -((-offsetMs) / 1000)
  }

  /** The elapsed time the projection receives as the code is written:
      whole seconds only. */
  function ElapsedSecondsAsWritten(offsetMs: int): real
  {
    WholeSecondsAsWritten(offsetMs) as real
  }

  /** With truncating division, any offset shorter than a second projects no
      movement at all, and -1500 ms becomes -1 s rather than -1.5 s. */
  lemma SubSecondOffsetsDoNotMove(offsetMs: int)
    requires -1000 < offsetMs < 1000
    ensures ElapsedSecondsAsWritten(offsetMs) == ElapsedSecondsAsWritten(0) == 0.0
    ensures ElapsedSecondsAsWritten(999) == ElapsedSecondsAsWritten(0)
    ensures ElapsedSecondsAsWritten(-1500) == -1.0
  {
  }

  /** The elapsed time the projection is meant to receive: the offset in
      seconds, fraction included. */
  function ElapsedSeconds(offsetMs: int): (r: real)
    ensures r * 1000.0 == offsetMs as real
  {
    offsetMs as real / 1000.0
  }

  /** The intended elapsed time tells offsets apart, adds up, and agrees
      with the truncated one exactly on whole seconds. */
  lemma ElapsedSecondsExact(a: int, b: int)
    ensures ElapsedSeconds(a) == ElapsedSeconds(b) <==> a == b
    ensures ElapsedSeconds(a + b) == ElapsedSeconds(a) + ElapsedSeconds(b)
    ensures a % 1000 == 0 ==> ElapsedSeconds(a) == ElapsedSecondsAsWritten(a)
  {
    if a % 1000 == 0 {
      var q := a / 1000;
      assert a == q * 1000;
      if a < 0 {
        assert -a == (-q) * 1000;
        assert (-a) / 1000 == -q;
      }
      assert WholeSecondsAsWritten(a) == q;
    }
  }

  /** Dead reckoning of one snapshot by `offsetMs` milliseconds, with the
      great-circle step moving it for `seconds` seconds: the new snapshot
      carries the same MMSI, speed, course, heading and label, the position
      the step gives from the course and speed, and the timestamp advanced by
      the offset. */
  function Advance(geo: GreatCircle, s: Snapshot, offsetMs: int, seconds: real): (r: Snapshot)
    ensures r.mmsi == s.mmsi && r.sog == s.sog && r.cog == s.cog
    ensures r.heading == s.heading && r.aisLabel == s.aisLabel
    ensures r.timestampMs == s.timestampMs + offsetMs
    ensures (r.latRads, r.lonRads) == geo(s.latRads, s.lonRads, s.cog, s.sog, seconds)
  {
    var position := geo(s.latRads, s.lonRads, s.cog, s.sog, seconds);
    Snapshot(s.mmsi, s.sog, s.cog, s.heading, position.0, position.1,
             s.timestampMs + offsetMs, s.aisLabel)
  }

  /** Dead reckoning with the corrected elapsed time, fraction included. */
  function Project(geo: GreatCircle, s: Snapshot, offsetMs: int): (r: Snapshot)
    ensures r.mmsi == s.mmsi && r.sog == s.sog && r.cog == s.cog
    ensures r.heading == s.heading && r.aisLabel == s.aisLabel
    ensures r.timestampMs == s.timestampMs + offsetMs
    ensures (r.latRads, r.lonRads) == geo(s.latRads, s.lonRads, s.cog, s.sog, ElapsedSeconds(offsetMs))
  {
    Advance(geo, s, offsetMs, ElapsedSeconds(offsetMs))
  }

  /** Dead reckoning as line 130 of the Java code computes it: the step
      receives the offset truncated to whole seconds. */
  function ProjectAsWritten(geo: GreatCircle, s: Snapshot, offsetMs: int): (r: Snapshot)
    ensures r.mmsi == s.mmsi && r.sog == s.sog && r.cog == s.cog
    ensures r.heading == s.heading && r.aisLabel == s.aisLabel
    ensures r.timestampMs == s.timestampMs + offsetMs
    ensures (r.latRads, r.lonRads)
      == geo(s.latRads, s.lonRads, s.cog, s.sog, ElapsedSecondsAsWritten(offsetMs))
  {
    Advance(geo, s, offsetMs, ElapsedSecondsAsWritten(offsetMs))
  }

  /** The as-written and the intended projection differ only in position:
      they coincide on whole-second offsets, and below one second the
      as-written one does not move the ship at all. */
  lemma ProjectAsWrittenVsIntended(geo: GreatCircle, s: Snapshot, offsetMs: int)
    ensures ProjectAsWritten(geo, s, offsetMs).(latRads := 0.0, lonRads := 0.0)
      == Project(geo, s, offsetMs).(latRads := 0.0, lonRads := 0.0)
    ensures offsetMs % 1000 == 0 ==> ProjectAsWritten(geo, s, offsetMs) == Project(geo, s, offsetMs)
    ensures -1000 < offsetMs < 1000 ==>
      (ProjectAsWritten(geo, s, offsetMs).latRads, ProjectAsWritten(geo, s, offsetMs).lonRads)
        == geo(s.latRads, s.lonRads, s.cog, s.sog, 0.0)
  {
    ElapsedSecondsExact(offsetMs, 0);
    if -1000 < offsetMs < 1000 {
      SubSecondOffsetsDoNotMove(offsetMs);
    }
  }

  /** A concrete great-circle step that reports the elapsed seconds it is
      given shows the two projections apart: for 999 ms the intended one
      moves by 0.999 s, the as-written one by 0 s. */
  lemma SubSecondProjectionDiffers(s: Snapshot)
    ensures var geo: GreatCircle := (lat: real, lon: real, cog: real, sog: real, seconds: real) => (seconds, seconds);
      && Project(geo, s, 999).latRads == 0.999
      && ProjectAsWritten(geo, s, 999).latRads == 0.0
  {
    SubSecondOffsetsDoNotMove(999);
  }

  /** Projecting by `a` and then by `b` lands on the same timestamp and keeps
      the same identity as projecting by `a + b`, for offsets of any sign. */
  lemma ProjectTimestampsCompose(geo: GreatCircle, s: Snapshot, a: int, b: int)
    ensures var twice := Project(geo, Project(geo, s, a), b);
      var once := Project(geo, s, a + b);
      && twice.timestampMs == once.timestampMs == s.timestampMs + a + b
      && twice.mmsi == once.mmsi && twice.sog == once.sog && twice.cog == once.cog
      && twice.heading == once.heading && twice.aisLabel == once.aisLabel
  {
  }

  /** A zero offset keeps the timestamp and asks the great-circle step for a
      zero-second move. */
  lemma ProjectZeroOffset(geo: GreatCircle, s: Snapshot)
    ensures Project(geo, s, 0).timestampMs == s.timestampMs
    ensures (Project(geo, s, 0).latRads, Project(geo, s, 0).lonRads)
      == geo(s.latRads, s.lonRads, s.cog, s.sog, 0.0)
  {
  }
}

=== FILE: outcomes.dfy ===
/** Optional values and success/failure results, used where the Java code
    returns null, skips an element or throws. */
module Outcomes {

  /** A value that may be absent. */
  datatype Option<+T> = None | Some(value: T)

  /** Either a computed value or the error the Java code would have thrown. */
  datatype Result<+T, +E> = Success(value: T) | Failure(error: E)
}

=== FILE: scenario.dfy ===
/** The worked example of AisContactManager.main and two small stores that
    show how getFutureSnapshots behaves. */
module Scenarios {
  import opened Snapshots
  import opened Outcomes
  import opened ContactStore
  import opened Extrapolation
  import opened ContactManager

  /** The report main files for every ship: speed 2, course 2, heading 2 at
      latitude and longitude 0. */
  function MainReport(mmsi: int, timestamp: int, aisLabel: string): Snapshot {
    Snapshot(mmsi, 2.0, 2.0, 2.0, 0.0, 0.0, timestamp, aisLabel)
  }

  /** Ship 1's reports in call order; `now` is the clock reading of the
      first one. */
  function Ship1Reports(now: int): seq<Snapshot> {
    [MainReport(1, now, "A"), MainReport(1, 2000, "A"), MainReport(1, 2423, "A"),
     MainReport(1, 3023, "A"), MainReport(1, 3342, "A")]
  }

  /** Ship 2's reports in call order. */
  function Ship2Reports(): seq<Snapshot> {
    [MainReport(2, 213, "B"), MainReport(2, 768, "B"), MainReport(2, 1234, "B"),
     MainReport(2, 1762, "B"), MainReport(2, 2423, "B"), MainReport(2, 2987, "B")]
  }

  /** Ship 3's single report. */
  function Ship3Reports(): seq<Snapshot> {
    [MainReport(3, 1256, "C")]
  }

  /** The store main queries: the twelve setShipPosition calls of main. */
  function MainStore(now: int): Store {
    Replay(Empty, Ship1Reports(now) + Ship2Reports() + Ship3Reports())
  }

  /** Ship 1's stack after main: its reports newest first, the
      clock-stamped one at the bottom. */
  function MainStack1(now: int): seq<Snapshot> {
    [MainReport(1, 3342, "A"), MainReport(1, 3023, "A"),
     MainReport(1, 2423, "A"), MainReport(1, 2000, "A"), MainReport(1, now, "A")]
  }

  /** Ship 2's stack after main. */
  function MainStack2(): seq<Snapshot> {
    [MainReport(2, 2987, "B"), MainReport(2, 2423, "B"), MainReport(2, 1762, "B"),
     MainReport(2, 1234, "B"), MainReport(2, 768, "B"), MainReport(2, 213, "B")]
  }

  /** main's stacks, stated about any store that holds them. */
  ghost predicate HoldsMainStacks(store: Store, now: int) {
    store == map[1 := MainStack1(now), 2 := MainStack2(), 3 := Ship3Reports()]
  }

  /** The first five calls of main build ship 1's stack. */
  lemma MainShip1Stage(now: int)
    ensures Replay(Empty, Ship1Reports(now)) == map[1 := MainStack1(now)]
  {
    var r1 := Ship1Reports(now);
    ReverseIndex(r1);
    assert Reverse(r1) == MainStack1(now);
    ReplayOneShip(Empty, 1, r1);
    assert Reverse(r1) + [] == MainStack1(now);
  }

  /** The next six calls build ship 2's stack beside it. */
  lemma MainShip2Stage(now: int)
    ensures Replay(map[1 := MainStack1(now)], Ship2Reports())
      == map[1 := MainStack1(now), 2 := MainStack2()]
  {
    var r2 := Ship2Reports();
    ReverseIndex(r2);
    assert Reverse(r2) == MainStack2();
    ReplayOneShip(map[1 := MainStack1(now)], 2, r2);
    assert Reverse(r2) + [] == MainStack2();
  }

  /** The last call creates ship 3's stack. */
  lemma MainShip3Stage(now: int)
    ensures Replay(map[1 := MainStack1(now), 2 := MainStack2()], Ship3Reports())
      == map[1 := MainStack1(now), 2 := MainStack2(), 3 := Ship3Reports()]
  {
    var r3 := Ship3Reports();
    ReverseIndex(r3);
    assert Reverse(r3) == r3;
    ReplayOneShip(map[1 := MainStack1(now), 2 := MainStack2()], 3, r3);
    assert Reverse(r3) + [] == r3;
  }

  /** The stacks main builds. */
  lemma MainStoreStacks(now: int)
    ensures HoldsMainStacks(MainStore(now), now)
  {
    var r1, r2, r3 := Ship1Reports(now), Ship2Reports(), Ship3Reports();
    ReplayAppend(Empty, r1 + r2, r3);
    ReplayAppend(Empty, r1, r2);
    MainShip1Stage(now);
    MainShip2Stage(now);
    MainShip3Stage(now);
  }

  /** On main's stacks, ship 1's lookup at 2000 skips the three later
      reports and answers the one at 2000. */
  lemma MainShip1At2000(store: Store, now: int)
    requires HoldsMainStacks(store, now)
    ensures VesselAtOrBefore(store, 1, 2000) == Some(MainReport(1, 2000, "A"))
  {
    FirstAtOrBeforeUnique(MainStack1(now), 2000, 3);
  }

  /** On main's stacks, ship 2's lookup at 2000 skips the two later reports
      and answers the one at 1762. */
  lemma MainShip2At2000(store: Store, now: int)
    requires HoldsMainStacks(store, now)
    ensures VesselAtOrBefore(store, 2, 2000) == Some(MainReport(2, 1762, "B"))
  {
    FirstAtOrBeforeUnique(MainStack2(), 2000, 2);
  }

  /** On main's stacks, ship 3's lookup at 2000 answers its only report. */
  lemma MainShip3At2000(store: Store, now: int)
    requires HoldsMainStacks(store, now)
    ensures VesselAtOrBefore(store, 3, 2000) == Some(MainReport(3, 1256, "C"))
  {
    FirstAtOrBeforeUnique(Ship3Reports(), 2000, 0);
  }

  /** Visiting three ships answers their three lookups, in visiting order. */
  lemma ShipsAlongThree(store: Store, a: int, b: int, c: int, t: int, x: Snapshot, y: Snapshot, z: Snapshot)
    requires VesselAtOrBefore(store, a, t) == Some(x)
    requires VesselAtOrBefore(store, b, t) == Some(y)
    requires VesselAtOrBefore(store, c, t) == Some(z)
    ensures ShipsAlong(store, [a, b, c], t) == [x, y, z]
  {
    assert ShipsAlong(store, [c], t) == [z] by {
      assert [c][1..] == [];
    }
    assert ShipsAlong(store, [b, c], t) == [y, z] by {
      assert [b, c][1..] == [c];
    }
    assert [a, b, c][1..] == [b, c];
  }

  /** Ships 1, 2 and 3, each once, is an iteration order of main's stacks. */
  lemma MainKeyOrder(store: Store, now: int)
    requires HoldsMainStacks(store, now)
    ensures IsKeyOrder(store, [1, 2, 3])
  {
  }

  /** On main's stacks, getShips(2000) visiting ships 1, 2, 3 answers the
      reports at 2000, 1762 and 1256. */
  lemma MainStacksAt2000(store: Store, now: int)
    requires HoldsMainStacks(store, now)
    ensures IsKeyOrder(store, [1, 2, 3])
    ensures GetShips(store, [1, 2, 3], 2000)
      == [MainReport(1, 2000, "A"), MainReport(2, 1762, "B"), MainReport(3, 1256, "C")]
  {
    MainKeyOrder(store, now);
    MainShip1At2000(store, now);
    MainShip2At2000(store, now);
    MainShip3At2000(store, now);
    ShipsAlongThree(store, 1, 2, 3, 2000,
      MainReport(1, 2000, "A"), MainReport(2, 1762, "B"), MainReport(3, 1256, "C"));
  }

  /** On main's stacks every iteration order gives the same three
      snapshots. */
  lemma MainStacksAnyOrder(store: Store, now: int)
    requires HoldsMainStacks(store, now)
    ensures forall order :: IsKeyOrder(store, order) ==>
      multiset(GetShips(store, order, 2000))
        == multiset{MainReport(1, 2000, "A"), MainReport(2, 1762, "B"), MainReport(3, 1256, "C")}
  {
    MainStacksAt2000(store, now);
    forall o | IsKeyOrder(store, o)
      ensures multiset(GetShips(store, o, 2000))
        == multiset{MainReport(1, 2000, "A"), MainReport(2, 1762, "B"), MainReport(3, 1256, "C")}
    {
      GetShipsOrderIndependent(store, o, [1, 2, 3], 2000);
    }
  }

  /** main's stacks hold three ships. */
  lemma MainStacksSize(store: Store, now: int)
    requires HoldsMainStacks(store, now)
    ensures |GetAllSnapshots(store)| == 3
  {
    assert store.Keys == {1, 2, 3};
  }

  /** main's check: three ships are known, and getShips(2000) answers ship 1
      at 2000, ship 2 at 1762 and ship 3 at 1256, whatever the clock reading;
      the same three snapshots come back in any iteration order. */
  lemma MainScenario(now: int)
    ensures |GetAllSnapshots(MainStore(now))| == 3
    ensures IsKeyOrder(MainStore(now), [1, 2, 3])
    ensures GetShips(MainStore(now), [1, 2, 3], 2000)
      == [MainReport(1, 2000, "A"), MainReport(2, 1762, "B"), MainReport(3, 1256, "C")]
    ensures forall order :: IsKeyOrder(MainStore(now), order) ==>
      multiset(GetShips(MainStore(now), order, 2000))
        == multiset{MainReport(1, 2000, "A"), MainReport(2, 1762, "B"), MainReport(3, 1256, "C")}
  {
    var store := MainStore(now);
    MainStoreStacks(now);
    MainStacksSize(store, now);
    MainStacksAt2000(store, now);
    MainStacksAnyOrder(store, now);
  }

  /** Ship 5 reported at 100 as "old" and then at 5000 as "new". */
  function LateReportStore(): Store {
    SetShipPosition(SetShipPosition(Empty, 5, 1.0, 0.5, 0.5, 0.0, 0.0, 100, "old"),
                    5, 1.0, 0.5, 0.5, 0.0, 0.0, 5000, "new")
  }

  /** The late report sits on top of the early one, and every report is
      filed under its own ship. */
  lemma LateReportStack()
    ensures LateReportStore()
      == map[5 := [Snapshot(5, 1.0, 0.5, 0.5, 0.0, 0.0, 5000, "new"),
                   Snapshot(5, 1.0, 0.5, 0.5, 0.0, 0.0, 100, "old")]]
    ensures WellFormed(LateReportStore())
  {
    var s1 := SetShipPosition(Empty, 5, 1.0, 0.5, 0.5, 0.0, 0.0, 100, "old");
    PushKeepsWellFormed(Empty, 5, 1.0, 0.5, 0.5, 0.0, 0.0, 100, "old");
    PushKeepsWellFormed(s1, 5, 1.0, 0.5, 0.5, 0.0, 0.0, 5000, "new");
    var early := Snapshot(5, 1.0, 0.5, 0.5, 0.0, 0.0, 100, "old");
    var late := Snapshot(5, 1.0, 0.5, 0.5, 0.0, 0.0, 5000, "new");
    assert s1 == map[5 := [early]] by {
      assert [early] + [] == [early];
    }
    assert LateReportStore() == s1[5 := [late] + [early]];
    assert [late] + [early] == [late, early];
  }

  /** getFutureSnapshots projects the head of a ship's stack, not the
      snapshot getShips found at `now`: with reports at 100 and then 5000 and
      the clock at 1000, the label is taken from the report at 100 but the
      projection starts from the report at 5000. */
  lemma FutureSnapshotsProjectTheHead(geo: GreatCircle)
    ensures GetShips(LateReportStore(), [5], 1000) == [Snapshot(5, 1.0, 0.5, 0.5, 0.0, 0.0, 100, "old")]
    ensures FutureSnapshots(LateReportStore(), geo, [5], 1000, 60000).Success?
    ensures FutureSnapshots(LateReportStore(), geo, [5], 1000, 60000).value.Keys == {"old"}
    ensures FutureSnapshots(LateReportStore(), geo, [5], 1000, 60000).value["old"].timestampMs == 65000
    ensures FutureSnapshots(LateReportStore(), geo, [5], 1000, 60000).value["old"].aisLabel == "new"
  {
    var store := LateReportStore();
    var early := Snapshot(5, 1.0, 0.5, 0.5, 0.0, 0.0, 100, "old");
    LateReportStack();
    assert IsKeyOrder(store, [5]);
    assert FirstAtOrBefore(store[5], 1000) == Some(1);
    assert GetShips(store, [5], 1000) == [early];
    assert (set s | s in [early] :: s.aisLabel) == {"old"};
    var i := PutProjectionsLastWins(store, geo, [early], 60000, "old");
  }

  /** Contacts loaded under a key other than their own MMSI make
      getFutureSnapshots fail: the listed snapshot's MMSI is looked up and
      is unknown. */
  lemma MisfiledContactsFailProjection(geo: GreatCircle)
    ensures var store := LoadContacts(Empty, map[8 := [Snapshot(9, 0.0, 0.0, 0.0, 0.0, 0.0, 10, "Z")]]);
      FutureSnapshots(store, geo, [8], 20, 1000) == Failure(UnknownVessel(9))
  {
    var misfiled := Snapshot(9, 0.0, 0.0, 0.0, 0.0, 0.0, 10, "Z");
    var store := LoadContacts(Empty, map[8 := [misfiled]]);
    assert IsKeyOrder(store, [8]);
    assert FirstAtOrBefore(store[8], 20) == Some(0);
    assert GetShips(store, [8], 20) == [misfiled];
    assert [misfiled][..0] == [];
  }
}

=== FILE: snapshot.dfy ===
/** The immutable AIS position report of one ship at one instant
    (class ShipAisSnapshot). */
module Snapshots {

  /** One AIS report. The five floating-point quantities are carried, never
      computed on: speed over ground in knots, course over ground and heading
      in radians, latitude and longitude in radians. `mmsi` is the ship's
      Maritime Mobile Service Identity, `timestampMs` milliseconds since the
      epoch and `aisLabel` the display name of the contact. The datatype has no
      update operation, so a snapshot never changes after construction. */
  datatype Snapshot = Snapshot(
    mmsi: int,
    sog: real,
    cog: real,
    heading: real,
    latRads: real,
    lonRads: real,
    timestampMs: int,
    aisLabel: string)

  /** Every getter returns exactly the argument the constructor received,
      with no unit conversion, and a snapshot is rebuilt exactly from its
      getters. */
  lemma GettersReturnConstructorArguments(
    mmsi: int, sog: real, cog: real, heading: real,
    latRads: real, lonRads: real, timestampMs: int, aisLabel: string)
    ensures var s := Snapshot(mmsi, sog, cog, heading, latRads, lonRads, timestampMs, aisLabel);
      && s.mmsi == mmsi && s.sog == sog && s.cog == cog && s.heading == heading
      && s.latRads == latRads && s.lonRads == lonRads
      && s.timestampMs == timestampMs && s.aisLabel == aisLabel
    ensures forall s: Snapshot ::
      Snapshot(s.mmsi, s.sog, s.cog, s.heading, s.latRads, s.lonRads, s.timestampMs, s.aisLabel) == s
  {
  }
}
